=== FILE: README.md ===
# nanoprobe StopWatch in Dafny

A model of the `StopWatch` of `nanoprobe/cronos.py`, with proofs about it.
It is the probe-recording engine of nanoprobe, and it keeps three pieces of state:

- an insertion-ordered table of probes (tag to value);
- the default-tag counter `probes_n`;
- the table of named counters behind tag templating. A name that was never seen reads as 0.

Once the wall clock is turned into an integer parameter `now`, every operation is a pure function on an immutable `StopWatch` value:
`start`, `stop`, `click`, `elapsed_time`, the CSV row sequence, and the two templating passes.

The project has these modules:

| module | file | what it holds |
|---|---|---|
| `Wrappers` | `wrappers.dfy` | `Option` |
| `Decimal` | `decimal.dfy` | `str()` of a non-negative integer, with a parser that inverts it |
| `OrderedMaps` | `ordered_map.dfy` | the `OrderedDict`: keys in insertion order plus a value map. Overwriting keeps a key's position; a new key goes at the end. |
| `Patterns` | `patterns.dfy` | `re.findall` for `{{(.*?)}}` and `{(.*?)}`, and `str.replace` |
| `Templating` | `templating.dfy` | `__populate_custom_tag` and its two passes, written as the code runs them |
| `TemplateModel` | `template_model.dfy` | a tag as a list of pieces (literal text, `{{name}}`, `{name}`), with the piece-by-piece intended result `Expected` and the lemmas linking `findall`/`replace` to pieces |
| `Resolution` | `resolution.dfy` | the theorem that the two passes compute `Expected` |
| `Cronos` | `cronos.dfy` | the `StopWatch` and its operations |
| `Scenarios` | `scenarios.dfy` | concrete runs derived from the general theorems |

The passes are written as the code runs them, not through the piece model.
`findall` and `str.replace` on strings are defined directly.
The counters move once per found name, repeats included, so a tag holding `{{n}}` twice shows the same number twice and moves `n` by two.

`Resolution.PopulateCustomTagResolves` shows that this literal algorithm agrees with a piece-by-piece reading on every tag built from brace-free literals and brace-free, newline-free names:

- each `{{n}}` shows `n` as it was before the call;
- each `{n}` shows `n` as it is after the auto-increment pass;
- every counter goes up by the number of `{{n}}` naming it.

Two behaviours of `click` are easy to misread; the model follows the code.

- **Templating the default tag.** `click` templates every tag when templating is on (cronos.py:73-74), the default tag `click-N` included. That tag holds no brace, so templating changes nothing.
  - `Cronos.ClickTagAsWritten` models that literally.
  - `Cronos.ClickTag` skips templating for the default tag.
  - `Cronos.ClickTagAgrees` proves the two equal, because `click-N` holds no brace.
- **A tag that resolves to `start`.** Such a tag is not special (cronos.py:76). The click overwrites the start time with the time elapsed since it (`Cronos.ClickOnStartTag`).

## Model

| member | source | states |
|---|---|---|
| Decimal.ParseNatToString | nanoprobe/cronos.py:151 | the decimal text of a counter reads back as the same number |
| Decimal.NatToStringInjective | nanoprobe/cronos.py:151 | two counters print the same text exactly when they are equal, so distinct counter values give distinct tags |
| OrderedMaps.Lookup | nanoprobe/cronos.py:70 | on a well-formed table a tag is present exactly when it is one of the keys |
| OrderedMaps.Put | nanoprobe/cronos.py:33 | assignment into an `OrderedDict`: the tag holds the new value and no other tag changes. An existing tag keeps its position; a new tag is appended. Well-formedness is kept. |
| OrderedMaps.Items | nanoprobe/cronos.py:126 | `items()` lists every key in insertion order with the value stored under it |
| Patterns.MatchBodyIsShortest | nanoprobe/cronos.py:17-19 | the lazy body `.*?` ends at the first closing delimiter and holds no newline |
| Patterns.MatchBodyFails | nanoprobe/cronos.py:17-19 | when the lazy body fails, every closing delimiter comes after a newline |
| Patterns.FindAllWithoutOpen | nanoprobe/cronos.py:146-148 | a string without `{` has no placeholder match |
| Patterns.FindAllBodies | nanoprobe/cronos.py:146 | every name `findall` returns is newline-free and occurs between the delimiters in the tag |
| Patterns.ReplaceAll | nanoprobe/cronos.py:150-151 | `str.replace` leaves a string without the pattern unchanged |
| Templating.ApplyAutoIncrement | nanoprobe/cronos.py:149-152 | the replace loop moves each counter by the number of times its name is in the found list, repeats included |
| Templating.AutoIncrementPass | nanoprobe/cronos.py:140-153 | the auto-increment pass moves each counter by the number of `{{name}}` found for it. With nothing found, the tag and the counters are unchanged. |
| Templating.NonIncrementalPass | nanoprobe/cronos.py:155-167 | with no `{name}` found, the non-incrementing pass returns the tag unchanged |
| Templating.PopulateCustomTag | nanoprobe/cronos.py:130-138 | only names found by the auto-increment pass move, each by its count. A tag with no placeholder of either form, in particular one without `{`, comes back unchanged with the same counters. |
| TemplateModel.FindAutoNames | nanoprobe/cronos.py:146 | on a tag built from pieces, `findall` of `{{(.*?)}}` lists exactly its auto-increment names, in order |
| TemplateModel.FindPlainNames | nanoprobe/cronos.py:161 | on a tag built from pieces with no `{{name}}`, `findall` of `{(.*?)}` lists exactly its `{name}` names, in order |
| TemplateModel.ReplaceAutoRender | nanoprobe/cronos.py:150-151 | on a tag built from pieces, replacing `{{n}}` rewrites exactly the `{{n}}` pieces and leaves literals, other names and `{n}` alone |
| TemplateModel.ReplacePlainRender | nanoprobe/cronos.py:165-166 | on a tag built from pieces with no `{{name}}`, replacing `{n}` rewrites exactly the `{n}` pieces |
| Resolution.ApplyAutoIncrementRender | nanoprobe/cronos.py:149-152 | on a tag built from pieces (brace-free literal text, brace- and newline-free names), the auto-increment loop over any name list covering the tag's names turns every `{{n}}` into the value `n` had before the loop |
| Resolution.ApplyNonIncrementalRender | nanoprobe/cronos.py:164-166 | on a tag built from pieces with no `{{n}}` left, the non-incrementing loop turns every `{n}` into the value of `n` |
| Resolution.AutoIncrementPassResolves | nanoprobe/cronos.py:146-152 | on a tag built from pieces, each `{{name}}` is replaced everywhere by its counter's value before the pass, and each counter goes up by the number of `{{name}}` naming it |
| Resolution.NonIncrementalPassResolves | nanoprobe/cronos.py:161-166 | on a tag built from pieces with no `{{name}}` left, each `{name}` is replaced by its counter's value, and everything else is kept |
| Resolution.PopulateCustomTagResolves | nanoprobe/cronos.py:130-167 | on a tag built from pieces, both passes together give the piece-by-piece result: `{{n}}` reads `n` before the call and `{n}` reads `n` after the first pass. The counters move by the `{{n}}` count. |
| Cronos.New | nanoprobe/cronos.py:25-41 | a new stopwatch has no probes and zero counters. With `autostart`, it holds just `start` at `now`. It has no `stop`. |
| Cronos.Start | nanoprobe/cronos.py:43-48 | `start` holds `now`; every other probe and both counters are unchanged; `start` keeps its position or is appended |
| Cronos.Stop | nanoprobe/cronos.py:50-55 | `stop` holds `now`; every other probe and both counters are unchanged; `stop` keeps its position or is appended |
| Cronos.ClickTagAsWritten | nanoprobe/cronos.py:66-74 | the default-tag counter goes up by one exactly when the tag is absent or empty |
| Cronos.ClickTag | nanoprobe/cronos.py:66-74 | an absent or empty tag becomes `click-<probes_n>`, with `probes_n` up by one and no counter moved. An explicit tag leaves `probes_n` alone. With templating off, or without `{`, the tag is used verbatim. Counters move only by the tag's `{{name}}` count. |
| Cronos.ClickTagAgrees | nanoprobe/cronos.py:66-74 | templating the default tag changes nothing |
| Cronos.Record | nanoprobe/cronos.py:70-76 | a missing `start` is first set to `now`. The value stored and returned is 0 then, and `now - start` otherwise. Only the tag, and a missing `start`, change. The order is kept: `start`, then the tag, is appended only if new. |
| Cronos.Click | nanoprobe/cronos.py:57-81 | the resolved tag holds the returned value, which is 0 on an unstarted watch and `now - start` otherwise. No other probe changes except a missing `start`. Tags keep their order, and new ones go at the end. `probes_n` moves only for the default tag. The invariant is kept. |
| Cronos.ElapsedTime | nanoprobe/cronos.py:169-176 | stop minus start, using `now` for whichever is missing; 0 when neither is set |
| Cronos.CsvRows | nanoprobe/cronos.py:115-128 | the header row `Tag`, `Elapsed Time`, then one row per probe in insertion order with its formatted value |
| Cronos.ElapsedTimeAfterStartStop | nanoprobe/cronos.py:43-55 | after `start` at `t0` and `stop` at `t1`, the elapsed time is `t1 - t0`, whenever it is read |
| Cronos.ElapsedTimeNeverStarted | nanoprobe/cronos.py:175-176 | a watch never started or stopped reads 0 |
| Cronos.ClickAppends | nanoprobe/cronos.py:73-76 | on a started watch, a click under a new tag appends it with the time since `start`, and every other probe stays |
| Cronos.ClickOverwrites | nanoprobe/cronos.py:73-76 | on a started watch, a click under an existing tag overwrites it in place, and the tag list is unchanged |
| Cronos.ClickOnStartTag | nanoprobe/cronos.py:76 | a click whose tag resolves to `start` overwrites the start time with the time elapsed since it |
| Cronos.RepeatedClickKeepsPosition | nanoprobe/cronos.py:33 | clicking the same plain tag twice keeps it where the first click put it and stores the second time |
| Scenarios.MixedTemplateResolves | nanoprobe/cronos.py:136-137 | for a name `n` without braces or newlines, `{{n}}-{n}` resolves to the counter before and after the call, and `n` goes up by one |
| Scenarios.MixedTemplateFresh | nanoprobe/cronos.py:136-137 | for a name `n` without braces or newlines, on fresh counters `{{n}}-{n}` resolves to `0-1` |
| Scenarios.CounterTagResolves | nanoprobe/cronos.py:146-152 | for a brace-free prefix and a name `n` without braces or newlines, `<prefix>{{n}}` shows the counter `n` and moves only `n`, by one |
| Scenarios.PlainTagResolves | nanoprobe/cronos.py:161-167 | for a name `n` without braces or newlines, `{n}` shows the counter `n` and moves no counter |
| Scenarios.ClickCounterTag | nanoprobe/cronos.py:73-76 | for a brace-free prefix and a name `n` without braces or newlines, on a started watch with templating on, clicking `<prefix>{{n}}` appends `<prefix>v`, where `v` is the counter `n`, keeps `start`, and moves `n` by one |
| Scenarios.ClickCounterTagTwice | nanoprobe/cronos.py:73-74 | for a brace-free prefix and a name `n` without braces or newlines, on any watch with templating on, started or not, two clicks on `<prefix>{{n}}` resolve to `<prefix>v` and `<prefix>(v+1)`, which differ |
| Scenarios.ClickTwiceFromZero | nanoprobe/cronos.py:73-74 | for a brace-free prefix and a name `n` without braces or newlines, on any watch with templating on and `n` unused, `<prefix>{{n}}` clicked twice is recorded as `<prefix>0`, then `<prefix>1` |
| Scenarios.FreshWatchCountsFromZero | nanoprobe/cronos.py:57-81 | on a new, unstarted watch, `a-{{n}}` clicked twice is recorded as `a-0`, then `a-1` |
| Scenarios.ClickPlainTag | nanoprobe/cronos.py:73-76 | for a name `n` without braces or newlines, on a started watch with templating on, a click on `{n}` records under the counter's value and moves no counter |
| Scenarios.ClickPlainTagTwice | nanoprobe/cronos.py:70-76 | for a name `n` without braces or newlines, on any watch with templating on, started or not, a second click on `{n}` resolves to the same tag, which the first click recorded |
| Scenarios.DisabledTemplatingIsVerbatim | nanoprobe/cronos.py:73-76 | with templating off, a tag is appended verbatim and no counter moves |
| Scenarios.TwoDefaultClicks | nanoprobe/cronos.py:66-68 | two clicks without a tag append the next two default tags, and `probes_n` goes up by two |
| Scenarios.DefaultTagsCount | nanoprobe/cronos.py:66-68 | on a new autostarted watch two untagged clicks give the tags `start`, `click-0`, `click-1` |
| Scenarios.FirstClickStarts | nanoprobe/cronos.py:70-71 | the first click on an unstarted watch sets `start` to its time and records 0 under `click-0` |

## Left out

- The wall clock `time.time()` (cronos.py:48, 55, 64, 175) is a parameter `now: int` of each operation that samples it.
- Probe values are integers, not floats.
  - Rounding to `rounding_precision` (cronos.py:78-79) is not modelled, because it is floating-point numerics.
  - The `{:f}`/`{:g}` rendering (cronos.py:89, 122) is an abstract `format` function.
- `pprint_probes` (cronos.py:83-94) is left out: it only prints to the console.
- `csv_dump` and `csv_dumps` (cronos.py:96-113) are left out: they open files or buffers. Only the row sequence `__write_csv` writes is modelled.
- CSV quoting and escaping inside `csv.DictWriter` is not modelled; it is library code.
- The `debug` flag (cronos.py:25, 35) is not modelled, because it does nothing.
- A read of the counter table inserts the name with value 0 (`defaultdict`, cronos.py:36, 151, 166). The model reads with a default and does not insert. So its key set can differ from that of the public `custom_tags` attribute: after `click("{x}")` Python holds `{'x': 0}` while the model holds no entry. The model claims agreement only on counter values read with the default.
- Resolution.PopulateCustomTagResolves covers only tags built from pieces: literal text without braces and names without braces or newlines.
  - Tags outside that shape, such as nested or unbalanced braces, still follow the literal algorithm of `Templating`.
  - The model has no closed-form description of those tags. The restriction is needed, not a convenience. On `{{a}}{{b{{a}}` the first pass finds `a` and `b{{a`. Replacing `{{a}}` also rewrites the inner one, giving `0{{b0`. So the counter `b{{a` goes up while its placeholder is never filled.
- TemplateModel.FindPlainNames covers only tags built from pieces that hold no `{{name}}`. Otherwise the pattern `{(.*?)}` also finds names the pieces do not have: on `a{{n}` it finds `{n`.
- TemplateModel.ReplaceAutoRender covers only tags built from pieces. A literal holding `{{n}}` would be rewritten too.
- TemplateModel.ReplacePlainRender covers only tags built from pieces that hold no `{{name}}`. Replacing `{n}` in `{{n}}` gives `{0}`, which rewrites part of an auto-increment placeholder.
- Cronos.ClickAppends covers only a started watch. On a watch without `start`, a click also appends `start` before the tag, which `Cronos.Click` and `Cronos.Record` state.
- Cronos.ClickOverwrites covers only a started watch, for the same reason. On a watch holding `stop` but no `start`, a click on `stop` turns the keys into `stop`, `start`.
- Scenarios.MixedTemplateResolves covers only names without braces or newlines. A name with a newline is not matched by `.*?` (cronos.py:17-19), so its placeholder stays in the tag; a name with braces is split differently by `findall`.
- Scenarios.MixedTemplateFresh covers only names without braces or newlines, for the same reason.
- Scenarios.CounterTagResolves covers only brace-free prefixes and names without braces or newlines. A prefix holding a placeholder is resolved too: with prefix `{{n}}` the tag shows `00` and `n` moves by two. A name with a newline is not matched by `.*?` (cronos.py:17-19), so its placeholder stays in the tag; a name with braces is split differently by `findall`.
- Scenarios.PlainTagResolves covers only names without braces or newlines. With a newline in the name, `{n}` is not replaced at all.
- Scenarios.ClickCounterTag covers only brace-free prefixes and names without braces or newlines, for the reasons given for CounterTagResolves.
- Scenarios.ClickCounterTagTwice covers only brace-free prefixes and names without braces or newlines, for the same reasons.
- Scenarios.ClickTwiceFromZero covers only brace-free prefixes and names without braces or newlines, for the same reasons.
- Scenarios.ClickPlainTag covers only names without braces or newlines. A `{n}` whose name holds a newline is recorded verbatim.
- Scenarios.ClickPlainTagTwice covers only names without braces or newlines. A name holding `{{x}}` is picked up by the first pass, which moves a counter between the two clicks.
- Resolution.AutoIncrementPassResolves covers only tags built from pieces, for the reason given for PopulateCustomTagResolves.
- Resolution.ApplyAutoIncrementRender covers only tags built from pieces, for the same reason.
- Resolution.NonIncrementalPassResolves covers only tags built from pieces that hold no `{{name}}`, which is what the first pass leaves of such a tag. A `{{name}}` left over would be taken by `{(.*?)}` as the name `{name`.
- Resolution.ApplyNonIncrementalRender covers only tags built from pieces that hold no `{{name}}`, for the same reason.
- Patterns.ReplaceAll states only that a string without the pattern is unchanged. What `str.replace` produces on tags built from pieces is stated by TemplateModel.ReplaceAutoRender and TemplateModel.ReplacePlainRender.
- Templating.NonIncrementalPass returns only a tag, so the statement that the pass leaves the counters as they were holds by construction.

=== FILE: cronos.dfy ===
/**
 The `StopWatch` of the original: an insertion-ordered record of probes,
 the default-tag counter and the templating counters. The wall clock is a
 parameter `now` of every operation that samples it; probe values are
 whole numbers.
 */
module Cronos {
  import opened Wrappers
  import opened Decimal
  import opened Patterns
  import opened Templating
  import opened OrderedMaps

  const StartTag: string := "start"
  const StopTag: string := "stop"
  const DefaultTagPrefix: string := "click-"
  const CsvTagHeadline: string := "Tag"
  const CsvElapsedTimeHeadline: string := "Elapsed Time"

  datatype StopWatch = StopWatch(
    probes: OrderedMap,       // tag -> timestamp (start, stop) or elapsed time, in insertion order
    probesN: nat,             // number of default tags handed out so far
    customTags: Counters,     // the templating counters
    customTagsEnabled: bool)  // whether tags are templated

  datatype CsvRow = CsvRow(tag: string, elapsedTime: string)

  /** The invariant every operation keeps: the probe table is a well-formed ordered map. */
  ghost predicate Valid(sw: StopWatch) {
    OrderedMaps.Valid(sw.probes)
  }

  /** `click()` and `click("")` both fall back to the default tag. */
  predicate IsDefaultTag(tag: Option<string>) {
    tag.None? || tag.value == ""
  }

  function DefaultTag(n: nat): string {
    DefaultTagPrefix + NatToString(n)
  }

  /** A new stopwatch, started at `now` when `autostart` is set. */
  function New(autostart: bool, customTagsEnabled: bool, now: int): (sw: StopWatch)
    ensures Valid(sw)
    ensures sw.probesN == 0 && sw.customTags == map[] && sw.customTagsEnabled == customTagsEnabled
    ensures sw.probes.keys == if autostart then [StartTag] else []
    ensures Lookup(sw.probes, StartTag) == if autostart then Some(now) else None
    ensures Lookup(sw.probes, StopTag).None?
  {
    EmptyValid();
    var idle := StopWatch(Empty, 0, map[], customTagsEnabled);
    assert StopTag != StartTag by { assert |StopTag| != |StartTag|; }
    assert StartTag !in idle.probes.keys && idle.probes.keys + [StartTag] == [StartTag];
    if autostart then Start(idle, now) else idle
  }

  /** Records `now` under `start`, replacing an earlier start in place; nothing else changes. */
  function Start(sw: StopWatch, now: int): (r: StopWatch)
    ensures Lookup(r.probes, StartTag) == Some(now)
    ensures forall k :: k != StartTag ==> Lookup(r.probes, k) == Lookup(sw.probes, k)
    ensures Valid(sw) ==> Valid(r)
    ensures Valid(sw) ==>
      r.probes.keys == (if StartTag in sw.probes.keys then sw.probes.keys else sw.probes.keys + [StartTag])
    ensures r.probesN == sw.probesN && r.customTags == sw.customTags
    ensures r.customTagsEnabled == sw.customTagsEnabled
  {
    sw.(probes := Put(sw.probes, StartTag, now))
  }

  /** Records `now` under `stop`, replacing an earlier stop in place; nothing else changes. */
  function Stop(sw: StopWatch, now: int): (r: StopWatch)
    ensures Lookup(r.probes, StopTag) == Some(now)
    ensures forall k :: k != StopTag ==> Lookup(r.probes, k) == Lookup(sw.probes, k)
    ensures Valid(sw) ==> Valid(r)
    ensures Valid(sw) ==>
      r.probes.keys == (if StopTag in sw.probes.keys then sw.probes.keys else sw.probes.keys + [StopTag])
    ensures r.probesN == sw.probesN && r.customTags == sw.customTags
    ensures r.customTagsEnabled == sw.customTagsEnabled
  {
    sw.(probes := Put(sw.probes, StopTag, now))
  }

  lemma DefaultTagHasNoBrace(n: nat)
    ensures '{' !in DefaultTag(n)
  {
    var s := NatToString(n);
    assert forall i :: 0 <= i < |s| ==> IsDigit(s[i]);
    assert '{' !in DefaultTagPrefix;
  }

  /**
   The tag a click records under, with the new default-tag counter and the
   new templating counters, as the original computes them: every tag, the
   default one included, goes through templating when it is enabled.
   */
  function ClickTagAsWritten(sw: StopWatch, tag: Option<string>): (r: (string, nat, Counters))
    ensures r.1 == sw.probesN + (if IsDefaultTag(tag) then 1 else 0)
  {
    var (t, n) := if IsDefaultTag(tag) then (DefaultTag(sw.probesN), sw.probesN + 1) else (tag.value, sw.probesN);
    if sw.customTagsEnabled then
      var (t2, c2) := PopulateCustomTag(t, sw.customTags);
      (t2, n, c2)
    else
      (t, n, sw.customTags)
  }

  /**
   The tag a click records under. The default tag has no brace, so
   templating leaves it and the counters alone (`ClickTagAgrees`); only an
   explicit tag is templated.
   */
  function ClickTag(sw: StopWatch, tag: Option<string>): (r: (string, nat, Counters))
    ensures IsDefaultTag(tag) ==> r == (DefaultTag(sw.probesN), sw.probesN + 1, sw.customTags)
    ensures !IsDefaultTag(tag) ==> r.1 == sw.probesN
    ensures !IsDefaultTag(tag) && !sw.customTagsEnabled ==> r.0 == tag.value && r.2 == sw.customTags
    ensures !IsDefaultTag(tag) && '{' !in tag.value ==> r == (tag.value, sw.probesN, sw.customTags)
    ensures forall k :: (Read(r.2, k) == Read(sw.customTags, k)
      + (if sw.customTagsEnabled && !IsDefaultTag(tag) then Occurrences(AutoNames(tag.value), k) else 0))
  {
    if IsDefaultTag(tag) then (DefaultTag(sw.probesN), sw.probesN + 1, sw.customTags)
    else if sw.customTagsEnabled then
      var (t2, c2) := PopulateCustomTag(tag.value, sw.customTags);
      (t2, sw.probesN, c2)
    else
      (tag.value, sw.probesN, sw.customTags)
  }

  /** Templating the default tag changes nothing, so both readings of a click's tag agree. */
  lemma ClickTagAgrees(sw: StopWatch, tag: Option<string>)
    ensures ClickTag(sw, tag) == ClickTagAsWritten(sw, tag)
  {
    DefaultTagHasNoBrace(sw.probesN);
  }

  /**
   The recording half of a click: starts the watch when it has no start
   yet, then stores `now - start` under `resolved` and returns that value.
   Only `resolved`, and `start` when it was missing, change.
   */
  function Record(probes: OrderedMap, resolved: string, now: int): (r: (OrderedMap, int))
    ensures Lookup(r.0, resolved) == Some(r.1)
    ensures r.1 == (if Lookup(probes, StartTag).None? then 0 else now - Lookup(probes, StartTag).value)
    ensures Lookup(probes, StartTag).None? && resolved != StartTag ==> Lookup(r.0, StartTag) == Some(now)
    ensures Lookup(r.0, StartTag).Some?
    ensures forall k :: k != resolved && (k != StartTag || Lookup(probes, StartTag).Some?) ==>
      Lookup(r.0, k) == Lookup(probes, k)
    ensures OrderedMaps.Valid(probes) ==> OrderedMaps.Valid(r.0)
    ensures OrderedMaps.Valid(probes) ==>
      var started := probes.keys + (if StartTag in probes.keys then [] else [StartTag]);
      r.0.keys == started + (if resolved in started then [] else [resolved])
  {
    match Lookup(probes, StartTag)
    case Some(start) => (Put(probes, resolved, now - start), now - start)
    case None => (Put(Put(probes, StartTag, now), resolved, 0), 0)
  }

  /**
   `click(tag)` at time `now`: resolves the tag, starts the watch when it
   has no start yet, stores `now - start` under the tag and returns it.
   The tag list keeps its order: a missing `start` is appended, then the
   resolved tag if it is new.
   */
  function Click(sw: StopWatch, tag: Option<string>, now: int): (r: (StopWatch, int))
    ensures var resolved := ClickTag(sw, tag).0;
      && Lookup(r.0.probes, resolved) == Some(r.1)
      && r.1 == (if Lookup(sw.probes, StartTag).None? then 0 else now - Lookup(sw.probes, StartTag).value)
      && (Lookup(sw.probes, StartTag).None? && resolved != StartTag ==> Lookup(r.0.probes, StartTag) == Some(now))
      && (forall k :: k != resolved && (k != StartTag || Lookup(sw.probes, StartTag).Some?) ==>
            Lookup(r.0.probes, k) == Lookup(sw.probes, k))
      && (Valid(sw) ==>
            var started := sw.probes.keys + (if StartTag in sw.probes.keys then [] else [StartTag]);
            r.0.probes.keys == started + (if resolved in started then [] else [resolved]))
    ensures r.0.probesN == sw.probesN + (if IsDefaultTag(tag) then 1 else 0)
    ensures r.0.customTags == ClickTag(sw, tag).2
    ensures r.0.customTagsEnabled == sw.customTagsEnabled
    ensures Valid(sw) ==> Valid(r.0)
  {
    var resolution := ClickTag(sw, tag);
    var recorded := Record(sw.probes, resolution.0, now);
    (StopWatch(recorded.0, resolution.1, resolution.2, sw.customTagsEnabled), recorded.1)
  }

  /** The `elapsed_time` property: stop (or now) minus start (or now). */
  function ElapsedTime(sw: StopWatch, now: int): (r: int)
    ensures Lookup(sw.probes, StartTag).None? && Lookup(sw.probes, StopTag).None? ==> r == 0
    ensures Lookup(sw.probes, StartTag).Some? && Lookup(sw.probes, StopTag).Some? ==>
      r == Lookup(sw.probes, StopTag).value - Lookup(sw.probes, StartTag).value
    ensures Lookup(sw.probes, StartTag).Some? && Lookup(sw.probes, StopTag).None? ==>
      r == now - Lookup(sw.probes, StartTag).value
    ensures Lookup(sw.probes, StartTag).None? && Lookup(sw.probes, StopTag).Some? ==>
      r == Lookup(sw.probes, StopTag).value - now
  {
    var stop := match Lookup(sw.probes, StopTag) case Some(v) => v case None => now;
    var start := match Lookup(sw.probes, StartTag) case Some(v) => v case None => now;
    stop - start
  }

  /**
   The rows the CSV export writes: the header, then one row per probe in
   insertion order. `format` stands for the `{:f}` / `{:g}` rendering.
   */
  function CsvRows(sw: StopWatch, format: int -> string): (rows: seq<CsvRow>)
    requires Valid(sw)
    ensures |rows| == |sw.probes.keys| + 1
    ensures rows[0] == CsvRow(CsvTagHeadline, CsvElapsedTimeHeadline)
    ensures forall i :: 0 <= i < |sw.probes.keys| ==>
      rows[i + 1].tag == sw.probes.keys[i] &&
      rows[i + 1].elapsedTime == format(Lookup(sw.probes, sw.probes.keys[i]).value)
  {
    var items := Items(sw.probes);
    [CsvRow(CsvTagHeadline, CsvElapsedTimeHeadline)]
      + seq(|items|, i requires 0 <= i < |items| => CsvRow(items[i].0, format(items[i].1)))
  }

  // ---------------------------------------------------------------------
  // Properties relating several operations

  /** After `start()` at `t0` and `stop()` at `t1`, `elapsed_time` is `t1 - t0` whenever it is read. */
  lemma ElapsedTimeAfterStartStop(sw: StopWatch, t0: int, t1: int, now: int)
    ensures ElapsedTime(Stop(Start(sw, t0), t1), now) == t1 - t0
  {
    var started := Start(sw, t0);
    assert Lookup(Stop(started, t1).probes, StartTag) == Lookup(started.probes, StartTag);
  }

  /** A watch that was never started nor stopped reads an elapsed time of 0. */
  lemma ElapsedTimeNeverStarted(customTagsEnabled: bool, created: int, now: int)
    ensures ElapsedTime(New(false, customTagsEnabled, created), now) == 0
  {
  }

  /**
   A click on a started stopwatch under a tag it does not hold yet appends
   that tag, holding the time since the start; every other probe stays.
   */
  lemma ClickAppends(sw: StopWatch, tag: Option<string>, now: int)
    requires Valid(sw) && Lookup(sw.probes, StartTag).Some?
    requires ClickTag(sw, tag).0 !in sw.probes.keys
    ensures var r := Click(sw, tag, now).0;
      && Valid(r)
      && r.probes.keys == sw.probes.keys + [ClickTag(sw, tag).0]
      && Lookup(r.probes, ClickTag(sw, tag).0) == Some(now - Lookup(sw.probes, StartTag).value)
      && (forall k :: k != ClickTag(sw, tag).0 ==> Lookup(r.probes, k) == Lookup(sw.probes, k))
      && r.probesN == ClickTag(sw, tag).1 && r.customTags == ClickTag(sw, tag).2
      && r.customTagsEnabled == sw.customTagsEnabled
  {
    assert StartTag in sw.probes.keys;
  }

  /**
   A click on a started stopwatch under a tag it already holds overwrites
   that probe in place; the tag list does not change.
   */
  lemma ClickOverwrites(sw: StopWatch, tag: Option<string>, now: int)
    requires Valid(sw) && Lookup(sw.probes, StartTag).Some?
    requires ClickTag(sw, tag).0 in sw.probes.keys
    ensures var r := Click(sw, tag, now).0;
      && Valid(r)
      && r.probes.keys == sw.probes.keys
      && Lookup(r.probes, ClickTag(sw, tag).0) == Some(now - Lookup(sw.probes, StartTag).value)
      && (forall k :: k != ClickTag(sw, tag).0 ==> Lookup(r.probes, k) == Lookup(sw.probes, k))
      && r.probesN == ClickTag(sw, tag).1 && r.customTags == ClickTag(sw, tag).2
      && r.customTagsEnabled == sw.customTagsEnabled
  {
    assert StartTag in sw.probes.keys;
  }

  /**
   A click whose tag resolves to `start` is not special: it overwrites the
   start time, in place, with the time elapsed since that start.
   */
  lemma ClickOnStartTag(sw: StopWatch, tag: Option<string>, now: int)
    requires Valid(sw) && Lookup(sw.probes, StartTag).Some?
    requires ClickTag(sw, tag).0 == StartTag
    ensures var r := Click(sw, tag, now).0;
      && r.probes.keys == sw.probes.keys
      && Lookup(r.probes, StartTag) == Some(now - Lookup(sw.probes, StartTag).value)
  {
    ClickOverwrites(sw, tag, now);
  }

  /**
   Clicking the same plain tag twice: the second click overwrites the
   value but keeps the tag where the first click put it.
   */
  lemma RepeatedClickKeepsPosition(sw: StopWatch, x: string, t1: int, t2: int)
    requires Valid(sw)
    requires x != "" && '{' !in x
    ensures var first := Click(sw, Some(x), t1).0;
      var second := Click(first, Some(x), t2).0;
      && x in first.probes.keys
      && second.probes.keys == first.probes.keys
      && Lookup(second.probes, x) == Some(t2 - Lookup(first.probes, StartTag).value)
  {
    var first := Click(sw, Some(x), t1).0;
    assert ClickTag(sw, Some(x)).0 == x;
    assert ClickTag(first, Some(x)).0 == x;
    assert x in first.probes.keys && StartTag in first.probes.keys;
  }
}

=== FILE: decimal.dfy ===
/**
 Decimal rendering of natural numbers: the `str(n)` used when a counter
 replaces a placeholder and the `{:d}` of the default `click-N` tag.
 */
module Decimal {

  predicate IsDigit(c: char) {
    '0' <= c <= '9'
  }

  predicate AllDigits(s: string) {
    forall i :: 0 <= i < |s| ==> IsDigit(s[i])
  }

  function DigitChar(d: nat): (c: char)
    requires d < 10
    ensures IsDigit(c)
    ensures (c as int) - ('0' as int) == d
  {
    (('0' as int) + d) as char
  }

  function DigitValue(c: char): nat
    requires IsDigit(c)
  {
    (c as int) - ('0' as int)
  }

  /** The canonical decimal text of `n`: non-empty, digits only, no leading zero. */
  function NatToString(n: nat): (s: string)
    ensures |s| > 0
    ensures AllDigits(s)
    ensures s[0] == '0' ==> n == 0 && |s| == 1
    decreases n
  {
    if n < 10 then [DigitChar(n)]
    else NatToString(n / 10) + [DigitChar(n % 10)]
  }

  /** Reads a string of digits back as a number (most significant digit first). */
  function ParseNat(s: string): nat
    requires AllDigits(s)
    decreases |s|
  {
    if |s| == 0 then 0
    else 10 * ParseNat(s[..|s| - 1]) + DigitValue(s[|s| - 1])
  }

  /** Reading back the rendered text gives the number that was rendered. */
  lemma {:induction false} ParseNatToString(n: nat)
    ensures ParseNat(NatToString(n)) == n
    decreases n
  {
    var s := NatToString(n);
    if n < 10 {
      assert s[..|s| - 1] == [];
    } else {
      ParseNatToString(n / 10);
      assert s[..|s| - 1] == NatToString(n / 10);
    }
  }

  /** Different numbers render as different texts. */
  lemma NatToStringInjective(m: nat, n: nat)
    ensures NatToString(m) == NatToString(n) <==> m == n
  {
    if NatToString(m) == NatToString(n) {
      ParseNatToString(m);
      ParseNatToString(n);
    }
  }
}

=== FILE: ordered_map.dfy ===
/**
 The insertion-ordered tag -> value map that holds a stopwatch's probes
 (an `OrderedDict` in the original): the tags in first-insertion order
 beside a keyed lookup table. Writing an existing tag replaces its value
 where it stands; writing a new one appends it.
 */
module OrderedMaps {
  import opened Wrappers

  datatype OrderedMap = OrderedMap(keys: seq<string>, values: map<string, int>)

  /** Every tag is listed once, and exactly the listed tags have a value. */
  ghost predicate Valid(m: OrderedMap) {
    && (forall i, j :: 0 <= i < j < |m.keys| ==> m.keys[i] != m.keys[j])
    && (forall k :: k in m.values <==> k in m.keys)
  }

  const Empty: OrderedMap := OrderedMap([], map[])

  lemma EmptyValid()
    ensures Valid(Empty)
  {
  }

  /** The value stored under `k`, if any. */
  function Lookup(m: OrderedMap, k: string): (r: Option<int>)
    ensures Valid(m) ==> (r.Some? <==> k in m.keys)
  {
    if k in m.values then Some(m.values[k]) else None
  }

  /**
   Stores `v` under `k`: in place when `k` is present, appended at the end
   otherwise. Only the value under `k` changes.
   */
  function Put(m: OrderedMap, k: string, v: int): (r: OrderedMap)
    ensures Lookup(r, k) == Some(v)
    ensures forall k' :: k' != k ==> Lookup(r, k') == Lookup(m, k')
    ensures Valid(m) ==> Valid(r)
    ensures Valid(m) ==> r.keys == if k in m.keys then m.keys else m.keys + [k]
  {
    if k in m.values then m.(values := m.values[k := v])
    else OrderedMap(m.keys + [k], m.values[k := v])
  }

  /** The entries in insertion order, as iterating the dictionary yields them. */
  function Items(m: OrderedMap): (r: seq<(string, int)>)
    requires Valid(m)
    ensures |r| == |m.keys|
    ensures forall i :: 0 <= i < |r| ==> r[i].0 == m.keys[i] && Lookup(m, r[i].0) == Some(r[i].1)
  {
    seq(|m.keys|, i requires 0 <= i < |m.keys| => (m.keys[i], m.values[m.keys[i]]))
  }
}

=== FILE: patterns.dfy ===
/**
 The two string primitives the tag templating is built on: `re.findall`
 for the patterns `{{(.*?)}}` and `{(.*?)}` (an opening delimiter, the
 shortest body of non-newline characters, a closing delimiter), and
 `str.replace` (replace every leftmost non-overlapping occurrence).
 */
module Patterns {
  import opened Wrappers

  predicate StartsWith(s: string, p: string) {
    |p| <= |s| && s[..|p|] == p
  }

  /** `w` occurs somewhere in `s`. */
  predicate Occurs(s: string, w: string)
    decreases |s|
  {
    StartsWith(s, w) || (|s| > 0 && Occurs(s[1..], w))
  }

  predicate NoNewline(s: string) {
    '\n' !in s
  }

  lemma {:induction false} OccursInSuffix(s: string, k: nat, w: string)
    requires k <= |s|
    requires Occurs(s[k..], w)
    ensures Occurs(s, w)
    decreases k
  {
    if k > 0 {
      assert s[1..][k - 1..] == s[k..];
      OccursInSuffix(s[1..], k - 1, w);
    }
  }

  /**
   The lazy body `(.*?)` followed by `close`: the offset of the first
   occurrence of `close` in `b`, provided no newline comes before it.
   */
  function MatchBody(b: string, close: string): (r: Option<nat>)
    requires |close| > 0
    ensures r.Some? ==> r.value + |close| <= |b|
    decreases |b|
  {
    if StartsWith(b, close) then Some(0)
    else if |b| == 0 || b[0] == '\n' then None
    else
      match MatchBody(b[1..], close)
      case None => None
      case Some(j) => Some(j + 1)
  }

  /** A match ends at the first `close`, with no newline in the body. */
  lemma {:induction false} MatchBodyIsShortest(b: string, close: string)
    requires |close| > 0
    ensures var r := MatchBody(b, close);
      r.Some? ==>
        && StartsWith(b[r.value..], close)
        && NoNewline(b[..r.value])
        && forall j :: 0 <= j < r.value ==> !StartsWith(b[j..], close)
    decreases |b|
  {
    if !StartsWith(b, close) && |b| > 0 && b[0] != '\n' {
      MatchBodyIsShortest(b[1..], close);
      var r := MatchBody(b[1..], close);
      if r.Some? {
        var j := r.value;
        assert b[j + 1..] == b[1..][j..];
        assert b[..j + 1] == [b[0]] + b[1..][..j];
        forall i | 1 <= i <= j
          ensures !StartsWith(b[i..], close)
        {
          assert b[i..] == b[1..][i - 1..];
        }
      }
    }
  }

  /** No match means every `close` in `b` comes after a newline. */
  lemma {:induction false} MatchBodyFails(b: string, close: string)
    requires |close| > 0
    ensures MatchBody(b, close).None? ==>
      forall j :: 0 <= j <= |b| && StartsWith(b[j..], close) ==> '\n' in b[..j]
    decreases |b|
  {
    if !StartsWith(b, close) && |b| > 0 && b[0] != '\n' {
      MatchBodyFails(b[1..], close);
      forall j | 1 <= j <= |b|
        ensures b[j..] == b[1..][j - 1..] && b[..j] == [b[0]] + b[1..][..j - 1]
      {
      }
    } else if !StartsWith(b, close) && |b| > 0 {
      forall j | 1 <= j <= |b|
        ensures b[0] in b[..j]
      {
        assert b[..j][0] == b[0];
      }
    }
  }

  /**
   All non-overlapping matches of `open (.*?) close`, left to right, as the
   list of bodies. After a match the scan resumes behind it; where no match
   starts, it resumes one character later.
   */
  function FindAll(s: string, open: string, close: string): seq<string>
    requires |open| > 0 && |close| > 0
    decreases |s|
  {
    if |s| == 0 then []
    else if StartsWith(s, open) then
      var b := s[|open|..];
      match MatchBody(b, close)
      case Some(j) => [b[..j]] + FindAll(b[j + |close|..], open, close)
      case None => FindAll(s[1..], open, close)
    else FindAll(s[1..], open, close)
  }

  /** A string without the first character of `open` has no match. */
  lemma {:induction false} FindAllWithoutOpen(s: string, open: string, close: string)
    requires |open| > 0 && |close| > 0
    ensures open[0] !in s ==> FindAll(s, open, close) == []
    decreases |s|
  {
    if |s| > 0 && open[0] !in s {
      assert !StartsWith(s, open) by {
        if |open| <= |s| { assert s[..|open|][0] == s[0]; }
      }
      assert open[0] !in s[1..] by { assert s == [s[0]] + s[1..]; }
      FindAllWithoutOpen(s[1..], open, close);
    }
  }

  /** Each of `bodies` is newline-free and sits between `open` and `close` somewhere in `s`. */
  ghost predicate FoundIn(s: string, open: string, close: string, bodies: seq<string>) {
    forall i :: 0 <= i < |bodies| ==> NoNewline(bodies[i]) && Occurs(s, open + bodies[i] + close)
  }

  lemma {:induction false} FoundInSuffix(s: string, k: nat, open: string, close: string, bodies: seq<string>)
    requires k <= |s| && FoundIn(s[k..], open, close, bodies)
    ensures FoundIn(s, open, close, bodies)
  {
    forall i | 0 <= i < |bodies|
      ensures Occurs(s, open + bodies[i] + close)
    {
      OccursInSuffix(s, k, open + bodies[i] + close);
    }
  }

  /** The step of `FindAll` that takes a match: its body is found, and so is the rest. */
  lemma {:induction false} StartsWithConcat(s: string, x: string, y: string)
    requires StartsWith(s, x) && StartsWith(s[|x|..], y)
    ensures StartsWith(s, x + y)
  {
    forall i | 0 <= i < |x| + |y|
      ensures s[i] == (x + y)[i]
    {
      if i >= |x| {
        assert s[|x|..][..|y|][i - |x|] == y[i - |x|];
      } else {
        assert s[..|x|][i] == x[i];
      }
    }
    assert s[..|x| + |y|] == x + y;
  }

  /** The body a match at the start of `s` yields sits between `open` and `close` in `s`. */
  lemma {:induction false} MatchOccurs(s: string, open: string, close: string, j: nat)
    requires |open| > 0 && |close| > 0 && StartsWith(s, open)
    requires MatchBody(s[|open|..], close) == Some(j)
    ensures NoNewline(s[|open|..][..j]) && Occurs(s, open + s[|open|..][..j] + close)
  {
    var b := s[|open|..];
    assert StartsWith(b[j..], close) && NoNewline(b[..j]) by {
      MatchBodyIsShortest(b, close);
    }
    StartsWithConcat(s, open, b[..j]);
    assert s[|open + b[..j]|..] == b[j..];
    StartsWithConcat(s, open + b[..j], close);
  }

  lemma {:induction false} FoundInMatch(s: string, open: string, close: string, j: nat, rest: seq<string>)
    requires |open| > 0 && |close| > 0 && StartsWith(s, open)
    requires MatchBody(s[|open|..], close) == Some(j)
    requires FoundIn(s[|open|..][j + |close|..], open, close, rest)
    ensures FoundIn(s, open, close, [s[|open|..][..j]] + rest)
  {
    var b := s[|open|..];
    MatchOccurs(s, open, close, j);
    DropDrop(s, |open|, j + |close|);
    FoundInSuffix(s, |open| + j + |close|, open, close, rest);
    FoundInCons(s, open, close, b[..j], rest);
  }

  lemma DropDrop(s: string, a: nat, b: nat)
    requires a + b <= |s|
    ensures s[a..][b..] == s[a + b..]
  {
  }

  lemma {:induction false} FoundInCons(s: string, open: string, close: string, x: string, rest: seq<string>)
    requires NoNewline(x) && Occurs(s, open + x + close) && FoundIn(s, open, close, rest)
    ensures FoundIn(s, open, close, [x] + rest)
  {
    var all := [x] + rest;
    forall i | 0 <= i < |all|
      ensures NoNewline(all[i]) && Occurs(s, open + all[i] + close)
    {
      if i > 0 { assert all[i] == rest[i - 1]; }
    }
  }

  /** Every body found is newline-free and sits between `open` and `close` somewhere in `s`. */
  lemma {:induction false} FindAllBodies(s: string, open: string, close: string)
    requires |open| > 0 && |close| > 0
    ensures FoundIn(s, open, close, FindAll(s, open, close))
    decreases |s|
  {
    if |s| > 0 {
      if StartsWith(s, open) && MatchBody(s[|open|..], close).Some? {
        var b := s[|open|..];
        var j := MatchBody(b, close).value;
        FindAllBodies(b[j + |close|..], open, close);
        FoundInMatch(s, open, close, j, FindAll(b[j + |close|..], open, close));
      } else {
        FindAllBodies(s[1..], open, close);
        FoundInSuffix(s, 1, open, close, FindAll(s[1..], open, close));
      }
    }
  }

  /** Every leftmost non-overlapping occurrence of `p` in `s` replaced by `d`. */
  function ReplaceAll(s: string, p: string, d: string): (r: string)
    requires |p| > 0
    ensures !Occurs(s, p) ==> r == s
    decreases |s|
  {
    if |s| < |p| then s
    else if StartsWith(s, p) then d + ReplaceAll(s[|p|..], p, d)
    else [s[0]] + ReplaceAll(s[1..], p, d)
  }
}

=== FILE: resolution.dfy ===
/**
 The two templating passes, run on a rendered template, compute the
 piece-by-piece resolution `Expected`, and the counters move exactly by
 the auto-increment placeholders the template holds.
 */
module Resolution {
  import opened Decimal
  import opened Patterns
  import opened Templating
  import opened TemplateModel

  lemma {:induction false} AutoNamesOk(t: Template)
    requires WellFormed(t)
    ensures forall m :: m in AutoNamesOf(t) ==> NameOk(m)
    decreases |t|
  {
    if |t| > 0 {
      TailWellFormed(t);
      AutoNamesOk(t[1..]);
    }
  }

  lemma {:induction false} PlainNamesOk(t: Template)
    requires WellFormed(t)
    ensures forall m :: m in PlainNamesOf(t) ==> NameOk(m)
    decreases |t|
  {
    if |t| > 0 {
      TailWellFormed(t);
      PlainNamesOk(t[1..]);
    }
  }

  lemma HeadIsMember(s: seq<string>)
    ensures |s| > 0 ==> s[0] in s
  {
  }

  // ---------------------------------------------------------------------
  // The auto-increment pass

  lemma {:induction false} SubstAutoShape(t: Template, n: string, d: string)
    requires WellFormed(t) && BraceFree(d)
    ensures WellFormed(SubstAuto(t, n, d))
    ensures forall m :: m in AutoNamesOf(SubstAuto(t, n, d)) ==> m in AutoNamesOf(t) && m != n
    decreases |t|
  {
    if |t| > 0 {
      TailWellFormed(t);
      SubstAutoShape(t[1..], n, d);
      var r := SubstAuto(t, n, d);
      assert r[1..] == SubstAuto(t[1..], n, d);
      assert forall i :: 1 <= i < |r| ==> r[i] == r[1..][i - 1];
    }
  }

  /** Substituting `{{n}}` by its counter and then bumping `n` leaves the resolution unchanged. */
  lemma {:induction false} ResolveAutoAfterSubst(t: Template, n: string, c: Counters)
    ensures ResolveAuto(SubstAuto(t, n, NatToString(Read(c, n))), c[n := Read(c, n) + 1]) == ResolveAuto(t, c)
    decreases |t|
  {
    if |t| > 0 {
      ResolveAutoAfterSubst(t[1..], n, c);
    }
  }

  lemma {:induction false} ResolveAutoNone(t: Template, c: Counters)
    requires AutoNamesOf(t) == []
    ensures ResolveAuto(t, c) == t
    decreases |t|
  {
    if |t| > 0 {
      assert !t[0].AutoIncrement?;
      ResolveAutoNone(t[1..], c);
    }
  }

  /**
   The replace loop of the auto-increment pass, run over any list of names
   that covers the template's `{{...}}` names, turns every `{{n}}` into the
   value `n` had before the loop.
   */
  lemma {:induction false} ApplyAutoIncrementRender(t: Template, ns: seq<string>, c: Counters)
    requires WellFormed(t)
    requires forall i :: 0 <= i < |ns| ==> NameOk(ns[i])
    requires forall m :: m in AutoNamesOf(t) ==> m in ns
    ensures ApplyAutoIncrement(Render(t), ns, c).0 == Render(ResolveAuto(t, c))
    decreases |ns|
  {
    if |ns| == 0 {
      HeadIsMember(AutoNamesOf(t));
      ResolveAutoNone(t, c);
    } else {
      var n := ns[0];
      var d := NatToString(Read(c, n));
      var c1 := c[n := Read(c, n) + 1];
      DigitsBraceFree(Read(c, n));
      ReplaceAutoRender(t, n, d);
      var t1 := SubstAuto(t, n, d);
      SubstAutoShape(t, n, d);
      forall m | m in AutoNamesOf(t1)
        ensures m in ns[1..]
      {
        assert m in ns && m != ns[0];
        var i :| 0 <= i < |ns| && ns[i] == m;
        assert ns[1..][i - 1] == m;
      }
      ApplyAutoIncrementRender(t1, ns[1..], c1);
      ResolveAutoAfterSubst(t, n, c);
    }
  }

  lemma {:induction false} ResolveAutoShape(t: Template, c: Counters)
    requires WellFormed(t)
    ensures WellFormed(ResolveAuto(t, c)) && NoAutoIncrement(ResolveAuto(t, c))
    ensures PlainNamesOf(ResolveAuto(t, c)) == PlainNamesOf(t)
    decreases |t|
  {
    if |t| > 0 {
      TailWellFormed(t);
      ResolveAutoShape(t[1..], c);
      var r := ResolveAuto(t, c);
      if t[0].AutoIncrement? {
        DigitsBraceFree(Read(c, t[0].name));
      }
      assert r[1..] == ResolveAuto(t[1..], c);
      assert forall i :: 1 <= i < |r| ==> r[i] == r[1..][i - 1];
    }
  }

  // ---------------------------------------------------------------------
  // The non-incrementing pass

  lemma {:induction false} SubstPlainShape(t: Template, n: string, d: string)
    requires WellFormed(t) && NoAutoIncrement(t) && BraceFree(d)
    ensures WellFormed(SubstPlain(t, n, d)) && NoAutoIncrement(SubstPlain(t, n, d))
    ensures forall m :: m in PlainNamesOf(SubstPlain(t, n, d)) ==> m in PlainNamesOf(t) && m != n
    decreases |t|
  {
    if |t| > 0 {
      TailWellFormed(t);
      SubstPlainShape(t[1..], n, d);
      var r := SubstPlain(t, n, d);
      assert r[1..] == SubstPlain(t[1..], n, d);
      assert forall i :: 1 <= i < |r| ==> r[i] == r[1..][i - 1];
    }
  }

  lemma {:induction false} ResolvePlainAfterSubst(t: Template, n: string, c: Counters)
    ensures ResolvePlain(SubstPlain(t, n, NatToString(Read(c, n))), c) == ResolvePlain(t, c)
    decreases |t|
  {
    if |t| > 0 {
      ResolvePlainAfterSubst(t[1..], n, c);
    }
  }

  lemma {:induction false} ResolvePlainNone(t: Template, c: Counters)
    requires PlainNamesOf(t) == []
    ensures ResolvePlain(t, c) == t
    decreases |t|
  {
    if |t| > 0 {
      assert !t[0].NonIncremental?;
      ResolvePlainNone(t[1..], c);
    }
  }

  /** The replace loop of the non-incrementing pass turns every `{n}` into the value of `n`. */
  lemma {:induction false} ApplyNonIncrementalRender(t: Template, ns: seq<string>, c: Counters)
    requires WellFormed(t) && NoAutoIncrement(t)
    requires forall i :: 0 <= i < |ns| ==> NameOk(ns[i])
    requires forall m :: m in PlainNamesOf(t) ==> m in ns
    ensures ApplyNonIncremental(Render(t), ns, c) == Render(ResolvePlain(t, c))
    decreases |ns|
  {
    if |ns| == 0 {
      HeadIsMember(PlainNamesOf(t));
      ResolvePlainNone(t, c);
    } else {
      var n := ns[0];
      var d := NatToString(Read(c, n));
      DigitsBraceFree(Read(c, n));
      ReplacePlainRender(t, n, d);
      var t1 := SubstPlain(t, n, d);
      SubstPlainShape(t, n, d);
      forall m | m in PlainNamesOf(t1)
        ensures m in ns[1..]
      {
        assert m in ns && m != ns[0];
        var i :| 0 <= i < |ns| && ns[i] == m;
        assert ns[1..][i - 1] == m;
      }
      ApplyNonIncrementalRender(t1, ns[1..], c);
      ResolvePlainAfterSubst(t, n, c);
    }
  }

  lemma {:induction false} ResolveBothIsExpected(t: Template, before: Counters, after: Counters)
    ensures Render(ResolvePlain(ResolveAuto(t, before), after)) == Expected(t, before, after)
    decreases |t|
  {
    if |t| > 0 {
      ResolveBothIsExpected(t[1..], before, after);
    }
  }

  /**
   The auto-increment pass on a well-formed tag: every `{{n}}` shows the
   value `n` had before the pass, everything else is kept, and each counter
   goes up by the number of `{{n}}` placeholders naming it.
   */
  lemma AutoIncrementPassResolves(t: Template, c: Counters)
    requires WellFormed(t)
    ensures var r := AutoIncrementPass(Render(t), c);
      && r.0 == Render(ResolveAuto(t, c))
      && (forall k :: Read(r.1, k) == Read(c, k) + Occurrences(AutoNamesOf(t), k))
  {
    FindAutoNames(t);
    AutoNamesOk(t);
    if AutoNamesOf(t) == [] {
      ResolveAutoNone(t, c);
    } else {
      ApplyAutoIncrementRender(t, AutoNamesOf(t), c);
    }
  }

  /**
   The non-incrementing pass on a well-formed tag without `{{n}}`: every
   `{n}` shows the value of `n`, everything else is kept.
   */
  lemma NonIncrementalPassResolves(t: Template, c: Counters)
    requires WellFormed(t) && NoAutoIncrement(t)
    ensures NonIncrementalPass(Render(t), c) == Render(ResolvePlain(t, c))
  {
    FindPlainNames(t);
    PlainNamesOk(t);
    if PlainNamesOf(t) == [] {
      ResolvePlainNone(t, c);
    } else {
      ApplyNonIncrementalRender(t, PlainNamesOf(t), c);
    }
  }

  /**
   The templating of a well-formed tag: the resolved text is `Expected`
   (each `{{n}}` shows `n` before the call, each `{n}` shows `n` after the
   auto-increment pass) and each counter goes up by the number of `{{n}}`
   placeholders naming it.
   */
  lemma PopulateCustomTagResolves(t: Template, c: Counters)
    requires WellFormed(t)
    ensures var r := PopulateCustomTag(Render(t), c);
      && (forall k :: Read(r.1, k) == Read(c, k) + Occurrences(AutoNamesOf(t), k))
      && r.0 == Expected(t, c, r.1)
  {
    var (tag1, c1) := AutoIncrementPass(Render(t), c);
    AutoIncrementPassResolves(t, c);
    var t2 := ResolveAuto(t, c);
    ResolveAutoShape(t, c);
    NonIncrementalPassResolves(t2, c1);
    ResolveBothIsExpected(t, c, c1);
  }
}

=== FILE: scenarios.dfy ===
/**
 Concrete runs of the stopwatch and its templating, derived from the
 general theorems: the pass order inside one tag, counters carried from
 click to click, default tags and verbatim tags.
 */
module Scenarios {
  import opened Wrappers
  import opened Decimal
  import opened Templating
  import opened TemplateModel
  import opened Resolution
  import opened OrderedMaps
  import opened Cronos

  lemma SmallNumbers()
    ensures NatToString(0) == "0" && NatToString(1) == "1"
  {
  }

  /**
   `{{n}}-{n}` resolves to the counter before and after the call: the
   auto-increment pass runs first and bumps `n`, which the
   non-incrementing pass then reads.
   */
  lemma {:induction false} MixedTemplateResolves(n: string, c: Counters)
    requires NameOk(n)
    ensures var r := PopulateCustomTag(AutoPlaceholder(n) + "-" + PlainPlaceholder(n), c);
      && r.0 == NatToString(Read(c, n)) + "-" + NatToString(Read(c, n) + 1)
      && Read(r.1, n) == Read(c, n) + 1
  {
    var t := MixedPieces(n);
    MixedPiecesFacts(n);
    var r := PopulateCustomTag(Render(t), c);
    assert Read(r.1, n) == Read(c, n) + 1 && r.0 == Expected(t, c, r.1) by {
      PopulateCustomTagResolves(t, c);
    }
  }

  /** The pieces of `{{n}}-{n}`. */
  function MixedPieces(n: string): Template {
    [AutoIncrement(n), Literal("-"), NonIncremental(n)]
  }

  lemma {:induction false} MixedPiecesFacts(n: string)
    requires NameOk(n)
    ensures WellFormed(MixedPieces(n))
    ensures Render(MixedPieces(n)) == AutoPlaceholder(n) + "-" + PlainPlaceholder(n)
    ensures AutoNamesOf(MixedPieces(n)) == [n] && Occurrences([n], n) == 1
    ensures forall before, after :: (Expected(MixedPieces(n), before, after)
      == NatToString(Read(before, n)) + "-" + NatToString(Read(after, n)))
  {
    var t := MixedPieces(n);
    var t1, t2 := t[1..], t[2..];
    assert t1[1..] == t2 && t2[1..] == [];
    assert Render(t) == AutoPlaceholder(n) + "-" + PlainPlaceholder(n) by {
      assert Render(t2) == PlainPlaceholder(n) + "";
      assert Render(t1) == "-" + Render(t2);
    }
    assert AutoNamesOf(t) == [n] by {
      assert AutoNamesOf(t2) == [] + [];
      assert AutoNamesOf(t1) == [] + AutoNamesOf(t2);
    }
    forall before, after
      ensures Expected(t, before, after) == NatToString(Read(before, n)) + "-" + NatToString(Read(after, n))
    {
      assert Expected(t2, before, after) == NatToString(Read(after, n)) + "";
      assert Expected(t1, before, after) == "-" + Expected(t2, before, after);
    }
  }

  /** With fresh counters, `{{n}}-{n}` resolves to `0-1`, whatever the name. */
  lemma MixedTemplateFresh(n: string)
    requires NameOk(n)
    ensures var r := PopulateCustomTag(AutoPlaceholder(n) + "-" + PlainPlaceholder(n), map[]);
      r.0 == "0-1" && Read(r.1, n) == 1
  {
    MixedTemplateResolves(n, map[]);
    SmallNumbers();
  }

  /** The pieces of `<prefix>{{n}}`. */
  function CounterPieces(prefix: string, n: string): Template {
    [Literal(prefix), AutoIncrement(n)]
  }

  lemma {:induction false} CounterPiecesFacts(prefix: string, n: string)
    requires BraceFree(prefix) && NameOk(n)
    ensures WellFormed(CounterPieces(prefix, n))
    ensures Render(CounterPieces(prefix, n)) == prefix + AutoPlaceholder(n)
    ensures AutoNamesOf(CounterPieces(prefix, n)) == [n] && Occurrences([n], n) == 1
    ensures forall before, after :: (Expected(CounterPieces(prefix, n), before, after)
      == prefix + NatToString(Read(before, n)))
  {
    var t := CounterPieces(prefix, n);
    var t1 := t[1..];
    assert t1[1..] == [];
    assert Render(t1) == AutoPlaceholder(n) + "";
    assert AutoNamesOf(t1) == [n] + [];
    forall before, after
      ensures Expected(t, before, after) == prefix + NatToString(Read(before, n))
    {
      assert Expected(t1, before, after) == NatToString(Read(before, n)) + "";
    }
  }

  /** `<prefix>{{n}}` shows the counter `n` and moves it up by one. */
  lemma {:induction false} CounterTagResolves(prefix: string, n: string, c: Counters)
    requires BraceFree(prefix) && NameOk(n)
    ensures var r := PopulateCustomTag(prefix + AutoPlaceholder(n), c);
      && r.0 == prefix + NatToString(Read(c, n))
      && forall k :: Read(r.1, k) == Read(c, k) + (if k == n then 1 else 0)
  {
    var t := CounterPieces(prefix, n);
    CounterPiecesFacts(prefix, n);
    var r := PopulateCustomTag(Render(t), c);
    assert r.0 == Expected(t, c, r.1) && forall k :: Read(r.1, k) == Read(c, k) + Occurrences([n], k) by {
      PopulateCustomTagResolves(t, c);
    }
    forall k ensures Occurrences([n], k) == if k == n then 1 else 0 {
      assert [n][1..] == [];
    }
  }

  /** The single piece of `{n}`. */
  function PlainPieces(n: string): Template {
    [NonIncremental(n)]
  }

  lemma {:induction false} PlainPiecesFacts(n: string)
    requires NameOk(n)
    ensures WellFormed(PlainPieces(n))
    ensures Render(PlainPieces(n)) == PlainPlaceholder(n)
    ensures AutoNamesOf(PlainPieces(n)) == []
    ensures forall before, after :: (Expected(PlainPieces(n), before, after) == NatToString(Read(after, n)))
  {
    var t := PlainPieces(n);
    assert t[1..] == [];
    assert Render(t) == PlainPlaceholder(n) + "";
    assert AutoNamesOf(t) == [] + [];
    forall before, after
      ensures Expected(t, before, after) == NatToString(Read(after, n))
    {
      assert Expected(t, before, after) == NatToString(Read(after, n)) + "";
    }
  }

  /** `{n}` shows the counter `n` and leaves every counter alone. */
  lemma {:induction false} PlainTagResolves(n: string, c: Counters)
    requires NameOk(n)
    ensures var r := PopulateCustomTag(PlainPlaceholder(n), c);
      && r.0 == NatToString(Read(c, n))
      && forall k :: Read(r.1, k) == Read(c, k)
  {
    var t := PlainPieces(n);
    PlainPiecesFacts(n);
    var r := PopulateCustomTag(Render(t), c);
    assert r.0 == Expected(t, c, r.1) && forall k :: Read(r.1, k) == Read(c, k) + Occurrences([], k) by {
      PopulateCustomTagResolves(t, c);
    }
  }

  /** Distinct counter values give distinct tags behind the same prefix. */
  lemma PrefixedNumbersDiffer(prefix: string, m: nat, n: nat)
    requires m != n
    ensures prefix + NatToString(m) != prefix + NatToString(n)
  {
    NatToStringInjective(m, n);
    assert (prefix + NatToString(m))[|prefix|..] == NatToString(m);
    assert (prefix + NatToString(n))[|prefix|..] == NatToString(n);
  }

  /**
   A click on `<prefix>{{n}}` on a started stopwatch with templating
   appends `<prefix>v`, where `v` is the counter `n`, and moves `n` to `v + 1`.
   */
  lemma {:induction false} ClickCounterTag(sw: StopWatch, prefix: string, n: string, now: int)
    requires Cronos.Valid(sw) && Lookup(sw.probes, StartTag).Some? && sw.customTagsEnabled
    requires BraceFree(prefix) && NameOk(n)
    requires prefix + NatToString(Read(sw.customTags, n)) !in sw.probes.keys
    ensures var r := Click(sw, Some(prefix + AutoPlaceholder(n)), now).0;
      && Cronos.Valid(r) && Lookup(r.probes, StartTag) == Lookup(sw.probes, StartTag)
      && r.customTagsEnabled
      && r.probes.keys == sw.probes.keys + [prefix + NatToString(Read(sw.customTags, n))]
      && Read(r.customTags, n) == Read(sw.customTags, n) + 1
  {
    var tag := prefix + AutoPlaceholder(n);
    var x := prefix + NatToString(Read(sw.customTags, n));
    assert tag != "";
    CounterTagResolves(prefix, n, sw.customTags);
    assert ClickTag(sw, Some(tag)).0 == x;
    assert StartTag != x by { assert StartTag in sw.probes.keys; }
    ClickAppends(sw, Some(tag), now);
  }

  /**
   Clicking `<prefix>{{n}}` twice on a stopwatch with templating records
   `<prefix>v` and then `<prefix>(v+1)`, where `v` is the counter `n`
   before the first click: the counter carries over from click to click,
   whatever probes the watch holds.
   */
  lemma {:induction false} ClickCounterTagTwice(sw: StopWatch, prefix: string, n: string, t1: int)
    requires sw.customTagsEnabled
    requires BraceFree(prefix) && NameOk(n)
    ensures var tag := prefix + AutoPlaceholder(n);
      var c1 := Click(sw, Some(tag), t1).0;
      && ClickTag(sw, Some(tag)).0 == prefix + NatToString(Read(sw.customTags, n))
      && ClickTag(c1, Some(tag)).0 == prefix + NatToString(Read(sw.customTags, n) + 1)
      && ClickTag(c1, Some(tag)).0 != ClickTag(sw, Some(tag)).0
  {
    var tag := prefix + AutoPlaceholder(n);
    var v := Read(sw.customTags, n);
    assert tag != "" by { assert |tag| >= |AutoPlaceholder(n)|; }
    CounterTagResolves(prefix, n, sw.customTags);
    var c1 := Click(sw, Some(tag), t1).0;
    assert c1.customTags == ClickTag(sw, Some(tag)).2 && c1.customTagsEnabled;
    assert Read(c1.customTags, n) == v + 1;
    CounterTagResolves(prefix, n, c1.customTags);
    PrefixedNumbersDiffer(prefix, v, v + 1);
  }

  /**
   The `a-{{n}}` example, for any brace-free prefix and name: with the
   counter `n` unused, `a-{{n}}` clicked twice is recorded as `a-0`, then `a-1`.
   */
  lemma {:induction false} ClickTwiceFromZero(sw: StopWatch, prefix: string, n: string, t1: int)
    requires sw.customTagsEnabled
    requires BraceFree(prefix) && NameOk(n) && n !in sw.customTags
    ensures var tag := prefix + AutoPlaceholder(n);
      && ClickTag(sw, Some(tag)).0 == prefix + "0"
      && ClickTag(Click(sw, Some(tag), t1).0, Some(tag)).0 == prefix + "1"
  {
    var tag := prefix + AutoPlaceholder(n);
    var c1 := Click(sw, Some(tag), t1).0;
    assert Read(sw.customTags, n) == 0;
    ClickCounterTagTwice(sw, prefix, n, t1);
    assert ClickTag(sw, Some(tag)).0 == prefix + NatToString(0);
    assert ClickTag(c1, Some(tag)).0 == prefix + NatToString(1);
    PrefixedSmallNumbers(prefix);
  }

  lemma PrefixedSmallNumbers(prefix: string)
    ensures prefix + NatToString(0) == prefix + "0" && prefix + NatToString(1) == prefix + "1"
  {
    SmallNumbers();
  }

  /** On a new, unstarted stopwatch, `a-{{n}}` clicked twice is recorded as `a-0`, then `a-1`. */
  lemma FreshWatchCountsFromZero(t0: int, t1: int)
    ensures var sw := New(false, true, t0);
      && ClickTag(sw, Some("a-{{n}}")).0 == "a-0"
      && ClickTag(Click(sw, Some("a-{{n}}"), t1).0, Some("a-{{n}}")).0 == "a-1"
  {
    NewFresh(t0);
    ExamplePieces();
    ClickTwiceFromZero(New(false, true, t0), "a-", "n", t1);
  }

  lemma NewFresh(t0: int)
    ensures New(false, true, t0).customTagsEnabled && "n" !in New(false, true, t0).customTags
  {
  }

  /** `a-{{n}}` is the brace-free prefix `a-` followed by the placeholder of the name `n`. */
  lemma ExamplePieces()
    ensures BraceFree("a-") && NameOk("n")
    ensures "a-" + AutoPlaceholder("n") == "a-{{n}}"
    ensures "a-" + "0" == "a-0" && "a-" + "1" == "a-1"
  {
  }

  /**
   A click on `{n}` on a started stopwatch with templating records under
   the counter `n` as text and leaves every counter alone.
   */
  lemma {:induction false} ClickPlainTag(sw: StopWatch, n: string, now: int)
    requires Cronos.Valid(sw) && Lookup(sw.probes, StartTag).Some? && sw.customTagsEnabled
    requires NameOk(n)
    ensures var r := Click(sw, Some(PlainPlaceholder(n)), now).0;
      && ClickTag(sw, Some(PlainPlaceholder(n))).0 == NatToString(Read(sw.customTags, n))
      && Cronos.Valid(r) && Lookup(r.probes, StartTag) == Lookup(sw.probes, StartTag)
      && r.customTagsEnabled
      && NatToString(Read(sw.customTags, n)) in r.probes.keys
      && Lookup(r.probes, NatToString(Read(sw.customTags, n))) == Some(now - Lookup(sw.probes, StartTag).value)
      && forall k :: Read(r.customTags, k) == Read(sw.customTags, k)
  {
    var tag := PlainPlaceholder(n);
    var x := NatToString(Read(sw.customTags, n));
    PlainTagResolves(n, sw.customTags);
    assert ClickTag(sw, Some(tag)).0 == x;
    if x in sw.probes.keys {
      ClickOverwrites(sw, Some(tag), now);
    } else {
      ClickAppends(sw, Some(tag), now);
    }
  }

  /**
   A `{n}` tag reads `n` without moving it: a second click on it resolves
   to the same tag, which the first click recorded, so the second click
   overwrites that probe in place.
   */
  lemma {:induction false} ClickPlainTagTwice(sw: StopWatch, n: string, t1: int)
    requires Cronos.Valid(sw) && sw.customTagsEnabled
    requires NameOk(n)
    ensures var tag := PlainPlaceholder(n);
      var c1 := Click(sw, Some(tag), t1).0;
      && ClickTag(c1, Some(tag)).0 == ClickTag(sw, Some(tag)).0
      && ClickTag(sw, Some(tag)).0 in c1.probes.keys
  {
    var tag := PlainPlaceholder(n);
    assert tag != "" by { assert |tag| >= 2; }
    PlainTagResolves(n, sw.customTags);
    var c1 := Click(sw, Some(tag), t1).0;
    var x := ClickTag(sw, Some(tag)).0;
    assert c1.customTags == ClickTag(sw, Some(tag)).2 && c1.customTagsEnabled;
    assert Read(c1.customTags, n) == Read(sw.customTags, n);
    PlainTagResolves(n, c1.customTags);
    var started := sw.probes.keys + (if StartTag in sw.probes.keys then [] else [StartTag]);
    assert c1.probes.keys == started + (if x in started then [] else [x]);
    if x !in started {
      assert c1.probes.keys[|started|] == x;
    }
  }

  /**
   With templating off, a tag with placeholders is recorded exactly as
   given and no counter moves.
   */
  lemma {:induction false} DisabledTemplatingIsVerbatim(sw: StopWatch, tag: string, now: int)
    requires Cronos.Valid(sw) && Lookup(sw.probes, StartTag).Some? && !sw.customTagsEnabled
    requires tag != "" && tag !in sw.probes.keys
    ensures var r := Click(sw, Some(tag), now).0;
      && r.probes.keys == sw.probes.keys + [tag]
      && Lookup(r.probes, tag) == Some(now - Lookup(sw.probes, StartTag).value)
      && r.customTags == sw.customTags
  {
    assert ClickTag(sw, Some(tag)) == (tag, sw.probesN, sw.customTags);
    ClickAppends(sw, Some(tag), now);
  }

  /**
   Two clicks without a tag on a started stopwatch append the next two
   default tags.
   */
  lemma {:induction false} TwoDefaultClicks(sw: StopWatch, t1: int, t2: int)
    requires Cronos.Valid(sw) && Lookup(sw.probes, StartTag).Some?
    requires DefaultTag(sw.probesN) !in sw.probes.keys && DefaultTag(sw.probesN + 1) !in sw.probes.keys
    ensures var c1 := Click(sw, None, t1);
      var c2 := Click(c1.0, Some(""), t2);
      && c2.0.probes.keys == sw.probes.keys + [DefaultTag(sw.probesN), DefaultTag(sw.probesN + 1)]
      && c2.0.probesN == sw.probesN + 2
  {
    PrefixedNumbersDiffer(DefaultTagPrefix, sw.probesN, sw.probesN + 1);
    ClickAppends(sw, None, t1);
    var c1 := Click(sw, None, t1);
    assert DefaultTag(sw.probesN + 1) !in c1.0.probes.keys;
    ClickAppends(c1.0, Some(""), t2);
  }

  /** Clicks without a tag on a new stopwatch are named `click-0`, `click-1`, in order. */
  lemma DefaultTagsCount(t0: int, t1: int, t2: int)
    ensures var sw0 := New(true, true, t0);
      var c1 := Click(sw0, None, t1);
      var c2 := Click(c1.0, Some(""), t2);
      c2.0.probes.keys == [StartTag, "click-0", "click-1"]
  {
    NewAutostarted(t0);
    TwoDefaultClicksFromStart(New(true, true, t0), t1, t2);
    DefaultTagsDiffer();
  }

  lemma NewAutostarted(t0: int)
    ensures var sw := New(true, true, t0);
      Cronos.Valid(sw) && sw.probesN == 0 && sw.probes.keys == [StartTag] && Lookup(sw.probes, StartTag).Some?
  {
  }

  lemma {:induction false} TwoDefaultClicksFromStart(sw: StopWatch, t1: int, t2: int)
    requires Cronos.Valid(sw) && sw.probesN == 0 && sw.probes.keys == [StartTag]
    requires Lookup(sw.probes, StartTag).Some?
    ensures Click(Click(sw, None, t1).0, Some(""), t2).0.probes.keys == [StartTag, DefaultTag(0), DefaultTag(1)]
  {
    DefaultTagsDiffer();
    TwoDefaultClicks(sw, t1, t2);
    assert [StartTag] + [DefaultTag(0), DefaultTag(1)] == [StartTag, DefaultTag(0), DefaultTag(1)];
  }

  lemma DefaultTagsDiffer()
    ensures DefaultTag(0) == "click-0" && DefaultTag(1) == "click-1"
    ensures DefaultTag(0) != StartTag && DefaultTag(1) != StartTag
  {
    SmallNumbers();
    assert DefaultTag(0) == "click-0" && DefaultTag(1) == "click-1";
  }

  /**
   The first click on a stopwatch that was not started starts it: `start`
   takes the click's time and the click records 0.
   */
  lemma {:induction false} FirstClickStarts(t0: int, now: int)
    ensures var c := Click(New(false, true, t0), None, now);
      && c.1 == 0
      && c.0.probes.keys == [StartTag, "click-0"]
      && Lookup(c.0.probes, StartTag) == Some(now)
      && Lookup(c.0.probes, "click-0") == Some(0)
  {
    SmallNumbers();
    assert DefaultTag(0) == "click-0";
  }
}

=== FILE: template_model.dfy ===
/**
 A structured view of a tag, used to state what the two templating passes
 compute. A template is a list of pieces: literal text without braces,
 auto-increment placeholders `{{name}}` and non-incrementing placeholders
 `{name}` whose names hold neither braces nor newlines. For every such
 tag, `PopulateCustomTag` agrees with `Expected`, which resolves each
 piece on its own: `{{name}}` reads the counter before the call, `{name}`
 reads it after the auto-increment pass.
 */
module TemplateModel {
  import opened Wrappers
  import opened Decimal
  import opened Patterns
  import opened Templating

  datatype Piece = Literal(text: string) | AutoIncrement(name: string) | NonIncremental(name: string)

  type Template = seq<Piece>

  predicate BraceFree(s: string) {
    '{' !in s && '}' !in s
  }

  /** What the regex body `.*?` can match up to the first closing brace. */
  predicate NameOk(s: string) {
    BraceFree(s) && '\n' !in s
  }

  predicate PieceOk(p: Piece) {
    match p
    case Literal(x) => BraceFree(x)
    case AutoIncrement(n) => NameOk(n)
    case NonIncremental(n) => NameOk(n)
  }

  predicate WellFormed(t: Template) {
    forall i :: 0 <= i < |t| ==> PieceOk(t[i])
  }

  predicate NoAutoIncrement(t: Template) {
    forall i :: 0 <= i < |t| ==> !t[i].AutoIncrement?
  }

  function PieceText(p: Piece): string {
    match p
    case Literal(x) => x
    case AutoIncrement(n) => AutoPlaceholder(n)
    case NonIncremental(n) => PlainPlaceholder(n)
  }

  /** The tag text a template stands for. */
  function Render(t: Template): string
    decreases |t|
  {
    if |t| == 0 then "" else PieceText(t[0]) + Render(t[1..])
  }

  function AutoNamesOf(t: Template): seq<string>
    decreases |t|
  {
    if |t| == 0 then []
    else (if t[0].AutoIncrement? then [t[0].name] else []) + AutoNamesOf(t[1..])
  }

  function PlainNamesOf(t: Template): seq<string>
    decreases |t|
  {
    if |t| == 0 then []
    else (if t[0].NonIncremental? then [t[0].name] else []) + PlainNamesOf(t[1..])
  }

  /**
   The intended result, piece by piece: literal text as is, `{{n}}` as the
   counter `n` of `before`, `{n}` as the counter `n` of `after`.
   */
  function Expected(t: Template, before: Counters, after: Counters): string
    decreases |t|
  {
    if |t| == 0 then ""
    else
      var head := match t[0]
        case Literal(x) => x
        case AutoIncrement(n) => NatToString(Read(before, n))
        case NonIncremental(n) => NatToString(Read(after, n));
      head + Expected(t[1..], before, after)
  }

  // ---------------------------------------------------------------------
  // Template rewriting steps

  function SubstAuto(t: Template, n: string, d: string): Template
    decreases |t|
  {
    if |t| == 0 then []
    else [if t[0] == AutoIncrement(n) then Literal(d) else t[0]] + SubstAuto(t[1..], n, d)
  }

  function SubstPlain(t: Template, n: string, d: string): Template
    decreases |t|
  {
    if |t| == 0 then []
    else [if t[0] == NonIncremental(n) then Literal(d) else t[0]] + SubstPlain(t[1..], n, d)
  }

  function ResolveAuto(t: Template, c: Counters): Template
    decreases |t|
  {
    if |t| == 0 then []
    else
      var p := if t[0].AutoIncrement? then Literal(NatToString(Read(c, t[0].name))) else t[0];
      [p] + ResolveAuto(t[1..], c)
  }

  function ResolvePlain(t: Template, c: Counters): Template
    decreases |t|
  {
    if |t| == 0 then []
    else
      var p := if t[0].NonIncremental? then Literal(NatToString(Read(c, t[0].name))) else t[0];
      [p] + ResolvePlain(t[1..], c)
  }

  lemma {:induction false} DigitsBraceFree(n: nat)
    ensures BraceFree(NatToString(n))
  {
    var s := NatToString(n);
    assert forall i :: 0 <= i < |s| ==> IsDigit(s[i]);
  }

  // ---------------------------------------------------------------------
  // findall over rendered templates

  lemma {:induction false} FindAllStep(s: string, open: string, close: string)
    requires |open| > 0 && |close| > 0
    requires |s| > 0 && !StartsWith(s, open)
    ensures FindAll(s, open, close) == FindAll(s[1..], open, close)
  {
  }

  lemma {:induction false} FindAllSkip(x: string, y: string, open: string, close: string)
    requires |open| > 0 && |close| > 0 && open[0] == '{'
    requires '{' !in x
    ensures FindAll(x + y, open, close) == FindAll(y, open, close)
    decreases |x|
  {
    if |x| > 0 {
      var s := x + y;
      assert x[0] in x;
      assert !StartsWith(s, open) by {
        if |open| <= |s| { assert s[..|open|][0] == x[0]; }
      }
      FindAllStep(s, open, close);
      assert '{' !in x[1..] by { assert x == [x[0]] + x[1..]; }
      assert s[1..] == x[1..] + y;
      FindAllSkip(x[1..], y, open, close);
    } else {
      assert x + y == y;
    }
  }

  lemma {:induction false} MatchBodyName(n: string, close: string, y: string)
    requires |close| > 0 && close[0] == '}'
    requires NameOk(n)
    ensures MatchBody(n + close + y, close) == Some(|n|)
    decreases |n|
  {
    var b := n + close + y;
    if |n| == 0 {
      assert b[..|close|] == close;
    } else {
      assert !StartsWith(b, close) by { assert b[0] == n[0]; }
      assert b[1..] == n[1..] + close + y;
      MatchBodyName(n[1..], close, y);
    }
  }

  lemma {:induction false} FindAllPlaceholder(open: string, n: string, close: string, y: string)
    requires |open| > 0 && |close| > 0 && close[0] == '}'
    requires NameOk(n)
    ensures FindAll(open + n + close + y, open, close) == [n] + FindAll(y, open, close)
  {
    var s := open + n + close + y;
    assert s[..|open|] == open;
    var b := s[|open|..];
    assert b == n + close + y;
    MatchBodyName(n, close, y);
    assert b[..|n|] == n;
    assert b[|n| + |close|..] == y;
  }

  lemma {:induction false} FindAutoPiece(p: Piece, y: string)
    requires PieceOk(p)
    ensures AutoNames(PieceText(p) + y) == (if p.AutoIncrement? then [p.name] else []) + AutoNames(y)
  {
    match p
    case Literal(x) =>
      FindAllSkip(x, y, AutoOpen, AutoClose);
    case AutoIncrement(n) =>
      FindAllPlaceholder(AutoOpen, n, AutoClose, y);
    case NonIncremental(n) =>
      var s := PieceText(p) + y;
      assert s == "{" + n + "}" + y;
      assert s[1] == (n + "}")[0];
      FindAllStep(s, AutoOpen, AutoClose);
      assert s[1..] == (n + "}") + y;
      FindAllSkip(n + "}", y, AutoOpen, AutoClose);
  }

  lemma {:induction false} FindPlainPiece(p: Piece, y: string)
    requires PieceOk(p) && !p.AutoIncrement?
    ensures PlainNames(PieceText(p) + y) == (if p.NonIncremental? then [p.name] else []) + PlainNames(y)
  {
    match p
    case Literal(x) =>
      FindAllSkip(x, y, PlainOpen, PlainClose);
    case NonIncremental(n) =>
      FindAllPlaceholder(PlainOpen, n, PlainClose, y);
  }

  lemma {:induction false} TailWellFormed(t: Template)
    requires |t| > 0 && WellFormed(t)
    ensures PieceOk(t[0]) && WellFormed(t[1..])
    ensures NoAutoIncrement(t) ==> !t[0].AutoIncrement? && NoAutoIncrement(t[1..])
  {
    assert forall i :: 0 <= i < |t| - 1 ==> t[1..][i] == t[i + 1];
  }

  /** `findall` of `{{(.*?)}}` on a rendered template lists its auto-increment names. */
  lemma {:induction false} FindAutoNames(t: Template)
    requires WellFormed(t)
    ensures AutoNames(Render(t)) == AutoNamesOf(t)
    decreases |t|
  {
    if |t| > 0 {
      TailWellFormed(t);
      FindAutoNames(t[1..]);
      FindAutoPiece(t[0], Render(t[1..]));
    }
  }

  /** `findall` of `{(.*?)}` on a template without `{{...}}` lists its non-incrementing names. */
  lemma {:induction false} FindPlainNames(t: Template)
    requires WellFormed(t) && NoAutoIncrement(t)
    ensures PlainNames(Render(t)) == PlainNamesOf(t)
    decreases |t|
  {
    if |t| > 0 {
      TailWellFormed(t);
      FindPlainNames(t[1..]);
      FindPlainPiece(t[0], Render(t[1..]));
    }
  }

  // ---------------------------------------------------------------------
  // str.replace over rendered templates

  lemma {:induction false} ReplaceStep(s: string, p: string, d: string)
    requires |p| > 0 && |s| > 0 && !StartsWith(s, p)
    ensures ReplaceAll(s, p, d) == [s[0]] + ReplaceAll(s[1..], p, d)
  {
    if |s| < |p| {
      assert s == [s[0]] + s[1..];
    }
  }

  lemma {:induction false} ReplaceSkip(x: string, y: string, p: string, d: string)
    requires |p| > 0 && p[0] == '{'
    requires '{' !in x
    ensures ReplaceAll(x + y, p, d) == x + ReplaceAll(y, p, d)
    decreases |x|
  {
    if |x| > 0 {
      var s := x + y;
      assert x[0] in x;
      assert !StartsWith(s, p) by {
        if |p| <= |s| { assert s[..|p|][0] == x[0]; }
      }
      ReplaceStep(s, p, d);
      assert '{' !in x[1..] by { assert x == [x[0]] + x[1..]; }
      assert s[1..] == x[1..] + y;
      ReplaceSkip(x[1..], y, p, d);
      assert x == [x[0]] + x[1..];
    } else {
      assert x + y == y;
    }
  }

  lemma {:induction false} ReplaceHit(p: string, y: string, d: string)
    requires |p| > 0
    ensures ReplaceAll(p + y, p, d) == d + ReplaceAll(y, p, d)
  {
    assert (p + y)[..|p|] == p;
    assert (p + y)[|p|..] == y;
  }

  /** Two placeholders of the same shape with different names: neither is a prefix of the other's text. */
  lemma {:induction false} PlaceholderMismatch(open: string, m: string, n: string, close: string, y: string)
    requires |close| > 0 && close[0] == '}'
    requires NameOk(m) && NameOk(n) && m != n
    ensures !StartsWith(open + m + close + y, open + n + close)
  {
    var s := open + m + close + y;
    var p := open + n + close;
    if |p| <= |s| {
      var k: nat;
      if |m| == |n| {
        var j :| 0 <= j < |m| && m[j] != n[j];
        k := |open| + j;
        assert s[k] == m[j] && p[k] == n[j];
      } else if |m| < |n| {
        k := |open| + |m|;
        assert s[k] == close[0] && p[k] == n[|m|];
      } else {
        k := |open| + |n|;
        assert p[k] == close[0] && s[k] == m[|n|];
      }
      assert s[..|p|][k] != p[k];
    }
  }

  lemma {:induction false} ReplaceAutoPiece(q: Piece, y: string, n: string, d: string)
    requires PieceOk(q) && NameOk(n)
    ensures ReplaceAll(PieceText(q) + y, AutoPlaceholder(n), d)
         == (if q == AutoIncrement(n) then d else PieceText(q)) + ReplaceAll(y, AutoPlaceholder(n), d)
  {
    var p := AutoPlaceholder(n);
    var s := PieceText(q) + y;
    match q
    case Literal(x) =>
      ReplaceSkip(x, y, p, d);
    case AutoIncrement(m) =>
      if m == n {
        ReplaceHit(p, y, d);
      } else {
        ReplaceOtherAuto(m, n, y, d);
      }
    case NonIncremental(m) =>
      ReplacePlainUnderAuto(m, n, y, d);
  }

  lemma {:induction false} ReplaceOtherAuto(m: string, n: string, y: string, d: string)
    requires NameOk(m) && NameOk(n) && m != n
    ensures ReplaceAll(AutoPlaceholder(m) + y, AutoPlaceholder(n), d)
         == AutoPlaceholder(m) + ReplaceAll(y, AutoPlaceholder(n), d)
  {
    var p := AutoPlaceholder(n);
    var x := m + AutoClose;
    ReplaceOtherAutoFirst(m, n, y, d);
    ReplaceOpenBrace(x, y, p, d);
    AutoPlaceholderSplit(m, ReplaceAll(y, p, d));
  }

  lemma {:induction false} AutoPlaceholderSplit(m: string, r: string)
    ensures "{" + ("{" + ((m + AutoClose) + r)) == AutoPlaceholder(m) + r
  {
  }

  /** The first `{` of a different `{{m}}` is copied over. */
  lemma {:induction false} ReplaceOtherAutoFirst(m: string, n: string, y: string, d: string)
    requires NameOk(m) && NameOk(n) && m != n
    ensures ReplaceAll(AutoPlaceholder(m) + y, AutoPlaceholder(n), d)
         == "{" + ReplaceAll("{" + ((m + AutoClose) + y), AutoPlaceholder(n), d)
  {
    var p := AutoPlaceholder(n);
    var s := AutoPlaceholder(m) + y;
    var s1 := "{" + ((m + AutoClose) + y);
    assert s == "{" + s1;
    PlaceholderMismatch(AutoOpen, m, n, AutoClose, y);
    ReplaceStep(s, p, d);
    assert s[1..] == s1;
  }

  /** A single `{` followed by a non-brace cannot start `{{...}}`. */
  lemma {:induction false} ReplaceOpenBrace(x: string, y: string, p: string, d: string)
    requires |p| > 1 && p[0] == '{' && p[1] == '{'
    requires '{' !in x && |x| > 0
    ensures ReplaceAll("{" + (x + y), p, d) == "{" + (x + ReplaceAll(y, p, d))
  {
    var s := "{" + (x + y);
    assert s[1] == x[0];
    assert x[0] in x;
    assert !StartsWith(s, p) by {
      if |p| <= |s| { assert s[..|p|][1] == s[1]; }
    }
    ReplaceStep(s, p, d);
    assert s[1..] == x + y;
    ReplaceSkip(x, y, p, d);
  }

  lemma {:induction false} ReplacePlainUnderAuto(m: string, n: string, y: string, d: string)
    requires NameOk(m) && NameOk(n)
    ensures ReplaceAll(PlainPlaceholder(m) + y, AutoPlaceholder(n), d)
         == PlainPlaceholder(m) + ReplaceAll(y, AutoPlaceholder(n), d)
  {
    var p := AutoPlaceholder(n);
    var s := PlainPlaceholder(m) + y;
    assert s == "{" + ((m + "}") + y);
    assert s[1] == (m + "}")[0];
    assert !StartsWith(s, p) by {
      if |p| <= |s| { assert s[..|p|][1] == s[1]; }
    }
    ReplaceStep(s, p, d);
    assert s[1..] == (m + "}") + y;
    ReplaceSkip(m + "}", y, p, d);
  }

  lemma {:induction false} ReplacePlainPiece(q: Piece, y: string, n: string, d: string)
    requires PieceOk(q) && !q.AutoIncrement? && NameOk(n)
    ensures ReplaceAll(PieceText(q) + y, PlainPlaceholder(n), d)
         == (if q == NonIncremental(n) then d else PieceText(q)) + ReplaceAll(y, PlainPlaceholder(n), d)
  {
    match q
    case Literal(x) =>
      ReplaceSkip(x, y, PlainPlaceholder(n), d);
    case NonIncremental(m) =>
      if m == n {
        ReplaceHit(PlainPlaceholder(n), y, d);
      } else {
        ReplaceOtherPlain(m, n, y, d);
      }
  }

  lemma {:induction false} ReplaceOtherPlain(m: string, n: string, y: string, d: string)
    requires NameOk(m) && NameOk(n) && m != n
    ensures ReplaceAll(PlainPlaceholder(m) + y, PlainPlaceholder(n), d)
         == PlainPlaceholder(m) + ReplaceAll(y, PlainPlaceholder(n), d)
  {
    var p := PlainPlaceholder(n);
    var s := PlainPlaceholder(m) + y;
    PlaceholderMismatch(PlainOpen, m, n, PlainClose, y);
    ReplaceStep(s, p, d);
    assert s[1..] == (m + PlainClose) + y;
    ReplaceSkip(m + PlainClose, y, p, d);
    assert s[0] == '{';
  }

  lemma {:induction false} ReplaceAutoRender(t: Template, n: string, d: string)
    requires WellFormed(t) && NameOk(n)
    ensures ReplaceAll(Render(t), AutoPlaceholder(n), d) == Render(SubstAuto(t, n, d))
    decreases |t|
  {
    if |t| > 0 {
      TailWellFormed(t);
      ReplaceAutoRender(t[1..], n, d);
      ReplaceAutoPiece(t[0], Render(t[1..]), n, d);
    }
  }

  /** `str.replace` of one `{n}` on a template without `{{...}}`: exactly its `{n}` pieces become `d`. */
  lemma {:induction false} ReplacePlainRender(t: Template, n: string, d: string)
    requires WellFormed(t) && NoAutoIncrement(t) && NameOk(n)
    ensures ReplaceAll(Render(t), PlainPlaceholder(n), d) == Render(SubstPlain(t, n, d))
    decreases |t|
  {
    if |t| > 0 {
      TailWellFormed(t);
      ReplacePlainRender(t[1..], n, d);
      ReplacePlainPiece(t[0], Render(t[1..]), n, d);
    }
  }
}

=== FILE: templating.dfy ===
/**
 Tag templating (`__populate_custom_tag` and its two passes). A tag may
 carry auto-increment placeholders `{{name}}` and non-incrementing
 placeholders `{name}`; both read the same table of named counters, in
 which a name never seen reads as 0.
 */
module Templating {
  import opened Decimal
  import opened Patterns

  /** The named counters; a missing name stands for a counter at 0. */
  type Counters = map<string, nat>

  const AutoOpen: string := "{{"
  const AutoClose: string := "}}"
  const PlainOpen: string := "{"
  const PlainClose: string := "}"

  /** Read with default 0, as the original's `defaultdict(lambda: 0)`. */
  function Read(c: Counters, name: string): nat {
    if name in c then c[name] else 0
  }

  /** How many times `name` appears in `names`. */
  function Occurrences(names: seq<string>, name: string): nat
    decreases |names|
  {
    if |names| == 0 then 0
    else (if names[0] == name then 1 else 0) + Occurrences(names[1..], name)
  }

  function AutoPlaceholder(name: string): string {
    AutoOpen + name + AutoClose
  }

  function PlainPlaceholder(name: string): string {
    PlainOpen + name + PlainClose
  }

  /** The names of the `{{name}}` placeholders of `tag`, in order, repeats included. */
  function AutoNames(tag: string): seq<string> {
    FindAll(tag, AutoOpen, AutoClose)
  }

  /** The names of the `{name}` placeholders of `tag`, in order, repeats included. */
  function PlainNames(tag: string): seq<string> {
    FindAll(tag, PlainOpen, PlainClose)
  }

  /**
   The loop of the auto-increment pass: for each found name in turn, every
   `{{name}}` still in the tag becomes the counter's current value, and the
   counter then goes up by one, whether or not anything was replaced.
   */
  function ApplyAutoIncrement(tag: string, names: seq<string>, c: Counters): (r: (string, Counters))
    ensures forall k :: Read(r.1, k) == Read(c, k) + Occurrences(names, k)
    decreases |names|
  {
    if |names| == 0 then (tag, c)
    else
      var n := names[0];
      var tag' := ReplaceAll(tag, AutoPlaceholder(n), NatToString(Read(c, n)));
      ApplyAutoIncrement(tag', names[1..], c[n := Read(c, n) + 1])
  }

  /** The auto-increment pass; returns the new tag and the new counter table. */
  function AutoIncrementPass(tag: string, c: Counters): (r: (string, Counters))
    ensures forall k :: Read(r.1, k) == Read(c, k) + Occurrences(AutoNames(tag), k)
    ensures AutoNames(tag) == [] ==> r == (tag, c)
  {
    var found := AutoNames(tag);
    if found == [] then (tag, c)
    else ApplyAutoIncrement(tag, found, c)
  }

  /** The loop of the non-incrementing pass: each `{name}` becomes the counter's value. */
  function ApplyNonIncremental(tag: string, names: seq<string>, c: Counters): string
    decreases |names|
  {
    if |names| == 0 then tag
    else
      var n := names[0];
      ApplyNonIncremental(ReplaceAll(tag, PlainPlaceholder(n), NatToString(Read(c, n))), names[1..], c)
  }

  /** The non-incrementing pass; it only reads the counters. */
  function NonIncrementalPass(tag: string, c: Counters): (r: string)
    ensures PlainNames(tag) == [] ==> r == tag
  {
    var found := PlainNames(tag);
    if found == [] then tag
    else ApplyNonIncremental(tag, found, c)
  }

  /**
   Both passes, auto-increment first, the second reading the counters the
   first one left. Only names found by the first pass move, each by the
   number of times it was found; a tag without a placeholder of either
   form, in particular one without any brace, is left alone.
   */
  function PopulateCustomTag(tag: string, c: Counters): (r: (string, Counters))
    ensures forall k :: Read(r.1, k) == Read(c, k) + Occurrences(AutoNames(tag), k)
    ensures AutoNames(tag) == [] && PlainNames(tag) == [] ==> r == (tag, c)
    ensures '{' !in tag ==> r == (tag, c)
  {
    FindAllWithoutOpen(tag, AutoOpen, AutoClose);
    FindAllWithoutOpen(tag, PlainOpen, PlainClose);
    var (tag1, c1) := AutoIncrementPass(tag, c);
    (NonIncrementalPass(tag1, c1), c1)
  }
}

=== FILE: wrappers.dfy ===
/** The optional-value datatype shared by the model's modules. */
module Wrappers {

  /** `None` stands for a missing key, a failed match or an absent argument. */
  datatype Option<+T> = None | Some(value: T)
}
